=== FILE: README.md ===
# dockerpc attach-stream demultiplexer, in Dafny

dockerpc runs an RPC server inside a Docker container and talks JSON-RPC to it
over the container's attach stream. Docker multiplexes stdin, stdout and
stderr on that one connection. Each frame starts with an 8-byte header:
byte 0 is the stream tag (0 stdin, 1 stdout, 2 stderr), bytes 1..3 are
reserved, and bytes 4..7 hold the payload length as a big-endian unsigned
32-bit integer. `dockerPipes` sits between the connection and the JSON-RPC
codec. Its `Read` hands stdout bytes to the codec, appends stderr bytes to
the client's error buffer, and remembers how much of the current frame is
still unread (`bytesRemaining`) and which stream it belongs to (`pipeName`).

The model is made of pure functions over immutable values:

- `Bytes`: bytes, `uint32` with explicit truncation, and big-endian 32-bit
  encoding.
- `Net`: the connection as a queue of chunks, one per read the peer's bytes
  arrive in. A read into a buffer of `n` bytes returns the head chunk, or its
  first `n` bytes with the rest kept at the head. An empty queue reads as
  `io.EOF`, a closed connection as "use of closed connection", and a `Fail`
  chunk as an I/O error.
- `Pipes`: the `dockerPipes` state and its `Read`, `Write` and `Close`. The
  stderr buffer is shared by pointer in Go; here it is an explicit input and
  output of `Read`, owned by the `Client` record.
- `Stream`: frames, their wire image, and consumers that call `Read`
  repeatedly (`ReadN`, one call per entry of a list of buffer sizes, since
  the JSON decoder reading the replies passes a different size each time).
  The separation theorem `DrainDemultiplexes` shows that reading a stream of
  well-formed frames, each header and each payload arriving as one chunk of
  the connection, to the end delivers exactly the stdout payloads and
  appends exactly the stderr payloads to the buffer.
- `Client`: the effect of `NewClient`, `Start`, `Call`, `StdError` and
  `Close` on the client's fields, including net/rpc's shutdown after a
  stream failure and error replies from the server.
- `Scenarios`: concrete streams. One is the interleaved stderr/stdout
  exchange. The other three are inputs on which `Read`, as written, loses
  frame boundaries.

The code rejects every header read whose length is not 8 (`c != 8`,
dockerpc.go:227), so a header that arrives in the same read as its payload is
rejected (`Scenarios.CoalescedHeaderRejected`).

## Model

| member | source | states |
|---|---|---|
| Bytes.ToUint32 | dockerpc.go:248 | The `uint32(len(b))` conversion keeps values below 2^32 and otherwise agrees with the length modulo 2^32 |
| Bytes.BigEndianU32 | dockerpc.go:230-232 | The big-endian decoding of the 4 size bytes is the value whose big-endian encoding is exactly those bytes |
| Bytes.DecodeEncode | dockerpc.go:230-232 | Big-endian decoding of the 4-byte encoding of a `uint32` gives the value back |
| Bytes.AsText | dockerpc.go:124 | Go's `string(b)` holds the same bytes, one character per byte, in order |
| Bytes.AsTextInjective | dockerpc.go:124 | Different buffers never give the same `StdError` text |
| Net.Read | dockerpc.go:222 | One connection read: at most the buffer's capacity, bytes are delivered in order and never lost or duplicated, input strictly shrinks on success with a non-empty buffer, EOF when nothing is left, a closed connection fails |
| Net.Write | dockerpc.go:271 | On an open connection the bytes are appended to the outgoing stream and the full count is reported; a closed one fails and is unchanged |
| Net.Close | dockerpc.go:275 | The connection is closed afterwards; an error is reported exactly when it was already closed |
| Pipes.ParseHeader | dockerpc.go:227-235 | A header read is accepted exactly when it returned 8 bytes; the tag is byte 0 and the size is the big-endian value of bytes 4..7; any other length gives the fixed "expected 8 byte header" error |
| Pipes.ParseEncodedHeader | dockerpc.go:227-235 | Parsing the 8 bytes Docker sends for a header gives back its tag and size |
| Pipes.ReservedBytesIgnored | dockerpc.go:230-234 | Bytes 1..3 of a header have no effect on the parsed header |
| Pipes.HeaderRead | dockerpc.go:220-229 | The header step reads into a 1024-byte buffer; a failed read returns the connection's error, and a successful one is parsed as a header, so it succeeds exactly when the read returned 8 bytes |
| Pipes.NextRemaining | dockerpc.go:245-254 | The unread count never grows, drops by exactly the buffer size while it stays positive, reaches zero only when the buffer covers it, and strictly drops for a buffer whose `uint32` length is non-zero (a buffer of exactly 2^32 bytes counts as 0 and leaves the count alone) |
| Pipes.Dispatch | dockerpc.go:256-267 | Tags 0, 1 and 2 succeed and any other tag fails as an unsupported pipe naming the tag; only stdout bytes reach the caller and only stderr bytes are appended to the error buffer |
| Pipes.DispatchSeparates | dockerpc.go:256-265 | Each payload byte goes to at most one place, the caller or the error buffer; stdout and stderr bytes are not dropped |
| Pipes.ReadPayload | dockerpc.go:238-267 | The payload read keeps the stream tag; a failed read returns its error and leaves the counter, data and buffer alone; a successful one updates the counter by the buffer size and routes the bytes by the tag, and for an unknown tag fails with that tag after the counter has moved |
| Pipes.Read | dockerpc.go:216-268 | The error buffer only grows, the caller never gets more than its buffer holds, an error delivers nothing, delivered bytes come from the stdout stream and buffered bytes from stderr |
| Pipes.ReadContinuesPayload | dockerpc.go:220-239 | With a payload pending, `Read` is exactly the payload step on the current state: no header is read and the stream tag is kept |
| Pipes.ReadRejectsHeader | dockerpc.go:220-229 | A failed or wrongly sized header read returns that error, delivers nothing and changes only the connection |
| Pipes.ReadCommitsHeader | dockerpc.go:230-243 | After a good header, `Read` is exactly the payload step on the state with that header's tag and size committed; if the payload read fails the full size stays pending, otherwise the counter is reduced by the buffer size |
| Pipes.ContinuationProgresses | dockerpc.go:248-254 | A successful read with a buffer whose `uint32` length is non-zero strictly reduces a pending payload count |
| Pipes.Write | dockerpc.go:270-272 | `Write` goes straight to the connection: its outcome is the connection write's, it succeeds exactly when the connection is open, and it leaves the demultiplexer state and incoming bytes alone |
| Pipes.Initial | dockerpc.go:189-194 | The demultiplexer `Start` builds over the attached connection has nothing pending and starts on stream 0 |
| Pipes.Close | dockerpc.go:274-276 | `Close` goes straight to the connection, which is closed afterwards; it fails exactly when it was already closed |
| Stream.ReadN | dockerpc.go:216-268 | Any sequence of reads, each with its own buffer size, only appends to the error buffer and never writes to or closes the connection |
| Stream.ReadNStops | dockerpc.go:216-268 | A consumer that makes more calls than the input's measure, each with a buffer size in 1..2^32-1, always meets an error |
| Stream.ReadNExtends | dockerpc.go:216-268 | Reading on only extends what was delivered to the caller and to the error buffer |
| Stream.ReadNSettles | dockerpc.go:216-268 | After a read has failed, further reads change nothing |
| Stream.DrainDemultiplexes | dockerpc.go:216-268 | Over a stream of well-formed frames (known tag, non-empty payload; header and payload each arrive as one chunk), a consumer that reads to the end with any non-empty buffer sizes below 2^32 receives exactly the stdout payloads in order, the error buffer gains exactly the stderr payloads in order, and the reads stop with EOF at a frame boundary |
| Client.NewClient | dockerpc.go:41-48 | A new client keeps its name, image and endpoint, has no docker client, no RPC handle and an empty error buffer |
| Client.Start | dockerpc.go:131-200 | `Start` succeeds exactly when the container is attached, and then installs a live RPC handle over a demultiplexer with nothing pending on stream 0; a failed step leaves the RPC handle alone; the docker client is the one created, and none if creating it failed; the container id is set once the container exists |
| Client.Exchange | dockerpc.go:197 | One codec exchange writes the request to the connection and then reads the reply: over an open connection the result is exactly the repeated demultiplexer read over the connection with the request appended; over a closed connection it fails at once, delivers nothing and leaves the demultiplexer unchanged |
| Client.Call | dockerpc.go:118-121 | `Call` empties the error buffer and changes nothing but it and the RPC handle; a shut-down RPC client fails with `ErrShutdown` and sends nothing; otherwise the request goes out, a stream failure is returned and shuts the client down, and a remote error reply is returned as such; a clean exchange with no remote error returns no error; the response, the error buffer and the new demultiplexer state are exactly those of the exchange |
| Client.CallResetsStdErr | dockerpc.go:118-120 | Earlier contents of the error buffer have no effect on a call, because it is emptied first |
| Client.CallAfterStreamFailure | dockerpc.go:118-121 | After a call whose stream failed, the next call fails with `ErrShutdown`, delivers nothing and leaves the connection alone |
| Client.StdError | dockerpc.go:123-125 | `StdError` returns the error buffer's bytes as a string of the same length and contents |
| Client.CallSeparatesStreams | dockerpc.go:118-125 | Over well-formed frames, whatever reads the codec makes, it sees only stdout payload bytes in order, and `StdError` afterwards holds only stderr payload bytes from this call, in order |
| Client.CallReadsWholeStream | dockerpc.go:118-125 | A call whose codec reads the whole stream sees exactly the stdout payloads, leaves exactly the stderr payloads in `StdError`, and ends at EOF with the RPC client shut down |
| Client.Close | dockerpc.go:51-74 | After `Close` no RPC handle is left and nothing else changes but the docker client's removal requests; the removal is requested exactly when a docker client exists; the error is the connection's close error and is absent when there was no handle |
| Client.CloseTwice | dockerpc.go:58-73 | A second `Close` reports no error |
| Client.CloseAfterFailedStart | dockerpc.go:51-74 | `Close` after a failed `Start` of a new client reports no error |
| Scenarios.StderrThenStdout | dockerpc.go:256-264 | An stderr frame "oops!" followed by an stdout frame "{}", read to the end with any buffer sizes, gives the caller "{}" and leaves "oops!" in the error buffer |
| Scenarios.ZeroLengthFrameTakesNextHeader | dockerpc.go:238-260 | After a zero-length stdout frame the payload read still happens: the caller gets the next frame's 8 header bytes as data, and the next header read consumes that frame's 1-byte payload and fails |
| Scenarios.CoalescedHeaderRejected | dockerpc.go:222-229 | A header that arrives in the same read as its payload is rejected, and the payload is consumed with it |
| Scenarios.ShortReadLosesFrameBoundary | dockerpc.go:245-254 | When payload reads return less than the buffer size, the counter reaches zero too early: 9 of 10 payload bytes are delivered and the 10th is consumed as a header and rejected |

## Left out

- `AttachStreamingContainer` (dockerpc.go:77-115): URL parsing, TCP and TLS dialling, and the HTTP upgrade request are network I/O. `Start` is given the resulting connection, or the step that failed, as a `StartOutcome`.
- `Start`'s docker calls (environment lookup of `DOCKER_CERT_PATH`, certificate paths, creating and starting the container): go-dockerclient is not part of this model. Only their effect on the client's fields is modelled.
- Client.Start: the error values from go-dockerclient are carried as an opaque `reason` string, not modelled in detail.
- JSON-RPC encoding of requests and decoding of replies (net/rpc and net/rpc/jsonrpc are not part of this model). A `Codec` value stands for one call's traffic: the request bytes, the buffer size of each read the decoder makes, and whether the reply carries an error.
- net/rpc reads replies on its own goroutine. The model puts the codec's reads inside the `Call` that caused them, so concurrency and interleaving between calls are left out.
- Client.Call: net/rpc reports an end of stream during a call as `io.ErrUnexpectedEOF`; the model returns the stream error itself. A failed write shuts the model's RPC client down, which net/rpc leaves to its reader; in the model a write fails only on a closed connection, where that reader fails as well.
- Client.Call: requires an RPC handle. Go would dereference a nil `rpcClient` when `Call` runs before a successful `Start`.
- Go's `io.Reader` allows a read to return data and an error together, and a write to be partial. The connection model never does either.
- `Client.output`, `DockerHostConfig` and `DockerConfig` are never read by the modelled code, so they are not fields of the model.
- The second `rpcClient` block in `Close` (dockerpc.go:66-72) cannot run, because the first block has already set the handle to nil. It is not modelled separately.
- Client.Close: the container removal's own error is ignored by the source and is not modelled; a removal is recorded as requested.
- Pipes.Read: its own contract states only the stream-separation and buffer facts. Its exact result in each of the three cases is stated by `Pipes.ReadContinuesPayload` (a payload is pending), `Pipes.ReadRejectsHeader` (the header read fails) and `Pipes.ReadCommitsHeader` (the header is good), in terms of `Pipes.HeaderRead` and `Pipes.ReadPayload`.
- Stream.DrainDemultiplexes: proved for frames with a known tag and a non-empty payload whose header and payload each arrive as one chunk of the connection (`Wire`), and for buffer sizes between 1 and 2^32 - 1. `Scenarios` shows, on concrete inputs, that zero-length frames, coalesced headers and short reads do not demultiplex.
- example/caller/caller.go is a sample program that uses the client, not part of the demultiplexer.

=== FILE: bytes.dfy ===
/** Fixed-width integers of the Go source and the big-endian uint32 codec of the frame header. */
module Bytes {

  /** Go's `byte`. */
  newtype byte = x: int | 0 <= x < 0x100

  /** Go's `uint32`. */
  newtype uint32 = x: int | 0 <= x < 0x1_0000_0000

  const TwoTo32: int := 0x1_0000_0000

  /** Go's conversion `uint32(n)` of a non-negative int: keeps the low 32 bits. */
  function ToUint32(n: nat): (r: uint32)
    ensures n < TwoTo32 ==> r as int == n
    ensures (r as int - n) % TwoTo32 == 0
  {
    (n % TwoTo32) as uint32
  }

  /** `binary.BigEndian` decoding of four bytes, most significant first: the inverse of the encoding. */
  function BigEndianU32(b: seq<byte>): (r: uint32)
    requires |b| == 4
    ensures U32ToBigEndian(r) == b
  {
    var hi := b[0] as int * 0x100 + b[1] as int;
    var lo := b[2] as int * 0x100 + b[3] as int;
    var v := hi * 0x1_0000 + lo;
    assert v / 0x1_0000 == hi && v % 0x1_0000 == lo;
    assert hi / 0x100 == b[0] as int && hi % 0x100 == b[1] as int;
    assert lo / 0x100 == b[2] as int && lo % 0x100 == b[3] as int;
    v as uint32
  }

  /** `binary.BigEndian` encoding of a uint32 into four bytes, most significant first. */
  function U32ToBigEndian(v: uint32): (b: seq<byte>)
    ensures |b| == 4
  {
    var hi := v as int / 0x1_0000;
    var lo := v as int % 0x1_0000;
    [(hi / 0x100) as byte, (hi % 0x100) as byte, (lo / 0x100) as byte, (lo % 0x100) as byte]
  }

  /** Decoding recovers every encoded value. */
  lemma DecodeEncode(v: uint32)
    ensures BigEndianU32(U32ToBigEndian(v)) == v
  {
    var hi := v as int / 0x1_0000;
    var lo := v as int % 0x1_0000;
    assert (hi / 0x100) * 0x100 + hi % 0x100 == hi;
    assert (lo / 0x100) * 0x100 + lo % 0x100 == lo;
    assert hi * 0x1_0000 + lo == v as int;
  }

  /** Go's `string(b)`: a string holding the same bytes, one character per byte. */
  function AsText(b: seq<byte>): (s: string)
    ensures |s| == |b|
    ensures forall i :: 0 <= i < |b| ==> s[i] as int == b[i] as int
  {
    seq(|b|, i requires 0 <= i < |b| => b[i] as int as char)
  }

  /** Distinct byte strings give distinct texts. */
  lemma AsTextInjective(a: seq<byte>, b: seq<byte>)
    requires AsText(a) == AsText(b)
    ensures a == b
  {
    assert |a| == |b|;
    forall i | 0 <= i < |a| ensures a[i] == b[i] {
      assert AsText(a)[i] == AsText(b)[i];
    }
  }

  /** Converting keeps prefixes. */
  lemma AsTextPrefix(a: seq<byte>, b: seq<byte>)
    requires a <= b
    ensures AsText(a) <= AsText(b)
  {
    assert AsText(a) == AsText(b)[..|a|];
  }
}

=== FILE: client.dfy ===
/**
 * The client facade: the container session's handles, the error buffer the
 * demultiplexer writes stderr bytes into, and the state effects of `NewClient`,
 * `Start`, `Call`, `StdError` and `Close`. The docker API and the JSON-RPC codec
 * are outside the model: `Start` takes the outcome of the docker calls as a
 * parameter, and `Call` takes the codec's traffic on the stream.
 */
module Client {
  import opened Bytes
  import opened Wrappers
  import Net
  import Pipes
  import Stream

  /** The docker API client; the model records the removal requests sent through it. */
  datatype DockerClient = DockerClient(removals: seq<string>)

  /**
   * The RPC client, wrapping the demultiplexer it reads replies through. Once
   * reading a reply has failed, net/rpc shuts the client down: every later call
   * fails with `ErrShutdown` without sending anything.
   */
  datatype RpcClient = RpcClient(pipes: Pipes.Pipes, shutdown: bool)

  datatype Client = Client(
    id: string,
    name: string,
    dockerImage: string,
    endpoint: string,
    stdErrBuf: seq<byte>,
    dockerClient: Option<DockerClient>,
    rpcClient: Option<RpcClient>)

  /** An RPC handle is what makes a client usable for calls. */
  predicate Active(c: Client)
  {
    c.rpcClient.Some?
  }

  datatype ClientError =
    | Docker(reason: string)                  // a failure reported by the docker API or the attach handshake
    | StreamFailed(failure: Pipes.PipeError)  // a failure on the attach stream during a call
    | Remote(message: string)                 // the server's reply carried an error
    | Shutdown                                // net/rpc's `ErrShutdown`: an earlier call's stream failed
    | Closing(cause: Net.NetError)            // the connection's close failed

  /** A client that has done nothing yet: no handles, an empty error buffer. */
  function NewClient(name: string, dockerImage: string, endpoint: string): (c: Client)
    ensures !Active(c) && c.dockerClient.None?
    ensures c.stdErrBuf == []
    ensures c.name == name && c.dockerImage == dockerImage && c.endpoint == endpoint
  {
    Client("", name, dockerImage, endpoint, [], None, None)
  }

  /**
   * How the docker side of `Start` went: the client constructor, container
   * creation, container start, and the attach handshake, each of which may fail.
   */
  datatype StartOutcome =
    | NoDockerClient(reason: string)
    | CreateFailed(docker: DockerClient, reason: string)
    | StartFailed(docker: DockerClient, containerId: string, reason: string)
    | AttachFailed(docker: DockerClient, containerId: string, reason: string)
    | Attached(docker: DockerClient, containerId: string, conn: Net.Conn)

  datatype Outcome = Outcome(client: Client, err: Option<ClientError>)

  /** `Start`, given how the docker calls went. */
  function Start(c: Client, outcome: StartOutcome): (r: Outcome)
    ensures r.err.None? <==> outcome.Attached?
    ensures r.err.None? ==> r.client.rpcClient == Some(RpcClient(Pipes.Initial(outcome.conn), false))
    ensures r.err.Some? ==> r.client.rpcClient == c.rpcClient
    ensures r.client.dockerClient == (if outcome.NoDockerClient? then None else Some(outcome.docker))
    ensures r.client.id == (if outcome.NoDockerClient? || outcome.CreateFailed? then c.id else outcome.containerId)
    ensures r.client.name == c.name && r.client.dockerImage == c.dockerImage && r.client.endpoint == c.endpoint
    ensures r.client.stdErrBuf == c.stdErrBuf
  {
    match outcome
    case NoDockerClient(reason) => Outcome(c.(dockerClient := None), Some(Docker(reason)))
    case CreateFailed(dc, reason) => Outcome(c.(dockerClient := Some(dc)), Some(Docker(reason)))
    case StartFailed(dc, id, reason) => Outcome(c.(dockerClient := Some(dc), id := id), Some(Docker(reason)))
    case AttachFailed(dc, id, reason) => Outcome(c.(dockerClient := Some(dc), id := id), Some(Docker(reason)))
    case Attached(dc, id, conn) =>
      Outcome(c.(dockerClient := Some(dc), id := id, rpcClient := Some(RpcClient(Pipes.Initial(conn), false))), None)
  }

  /**
   * What the JSON-RPC codec does on the stream for one call: it writes the
   * encoded request, then reads the reply through the demultiplexer, one `Read`
   * per entry of `bufSizes` with a buffer of that size. `remoteError` is the
   * error field of the reply, should the reads get that far. Decoding is not
   * modelled.
   */
  datatype Codec = Codec(request: seq<byte>, bufSizes: seq<nat>, remoteError: Option<string>)

  /** The codec's traffic for one call, starting from error buffer `stdErr`. */
  function Exchange(p: Pipes.Pipes, stdErr: seq<byte>, codec: Codec): (r: Stream.Reads)
    ensures stdErr <= r.stdErr
    ensures !p.conn.closed ==> r.pipes.conn.outgoing == p.conn.outgoing + codec.request
    ensures p.conn.closed ==> r.err == Some(Pipes.Transport(Net.UseOfClosed)) && r.data == [] && r.stdErr == stdErr
    ensures p.conn.closed ==> r.pipes == p
    ensures !p.conn.closed ==> r == Stream.ReadN(p.(conn := p.conn.(outgoing := p.conn.outgoing + codec.request)), stdErr, codec.bufSizes)
  {
    var (p1, sent) := Pipes.Write(p, codec.request);
    if sent.err.Some? then Stream.Reads(p1, stdErr, [], Some(Pipes.Transport(sent.err.value)))
    else Stream.ReadN(p1, stdErr, codec.bufSizes)
  }

  datatype CallOut = CallOut(client: Client, response: seq<byte>, err: Option<ClientError>)

  /**
   * `Call`: empties the error buffer, then hands the call to the RPC client,
   * which fails at once if it has shut down, and otherwise lets the codec
   * exchange one request and reply. A stream failure shuts it down.
   */
  function Call(c: Client, codec: Codec): (r: CallOut)
    requires Active(c)
    ensures Active(r.client)
    ensures r.client.(stdErrBuf := c.stdErrBuf, rpcClient := c.rpcClient) == c
    ensures c.rpcClient.value.shutdown ==> r == CallOut(c.(stdErrBuf := []), [], Some(Shutdown))
    ensures !c.rpcClient.value.shutdown && !c.rpcClient.value.pipes.conn.closed ==>
      r.client.rpcClient.value.pipes.conn.outgoing == c.rpcClient.value.pipes.conn.outgoing + codec.request
    ensures !c.rpcClient.value.shutdown && c.rpcClient.value.pipes.conn.closed ==>
      r.err == Some(StreamFailed(Pipes.Transport(Net.UseOfClosed)))
    ensures r.client.rpcClient.value.shutdown <==> c.rpcClient.value.shutdown || (r.err.Some? && r.err.value.StreamFailed?)
    ensures r.err.Some? && r.err.value.Remote? ==> codec.remoteError == Some(r.err.value.message)
    ensures r.err.None? ==> codec.remoteError.None?
    ensures r.err.Some? && r.err.value.Shutdown? ==> c.rpcClient.value.shutdown
    ensures r.err.Some? ==> !r.err.value.Docker? && !r.err.value.Closing?
    ensures !c.rpcClient.value.shutdown ==>
      var ex := Exchange(c.rpcClient.value.pipes, [], codec);
      && r.response == ex.data
      && r.client.stdErrBuf == ex.stdErr
      && r.client.rpcClient.value.pipes == ex.pipes
      && (ex.err.Some? ==> r.err == Some(StreamFailed(ex.err.value)))
      && (ex.err.None? && codec.remoteError.Some? ==> r.err == Some(Remote(codec.remoteError.value)))
      && (ex.err.None? && codec.remoteError.None? ==> r.err.None?)
  {
    var rpc := c.rpcClient.value;
    if rpc.shutdown then CallOut(c.(stdErrBuf := []), [], Some(Shutdown))
    else
      var ex := Exchange(rpc.pipes, [], codec);
      var failed := ex.err.Some?;
      var err := if failed then Some(StreamFailed(ex.err.value))
                 else if codec.remoteError.Some? then Some(Remote(codec.remoteError.value))
                 else None;
      CallOut(c.(stdErrBuf := ex.stdErr, rpcClient := Some(RpcClient(ex.pipes, failed))), ex.data, err)
  }

  /** `StdError`: the error buffer's bytes as a Go string. */
  function StdError(c: Client): (s: string)
    ensures |s| == |c.stdErrBuf|
    ensures forall i :: 0 <= i < |s| ==> s[i] as int == c.stdErrBuf[i] as int
  {
    AsText(c.stdErrBuf)
  }

  /** `Close`: requests container removal if a docker client exists, then closes and drops the RPC handle. */
  function Close(c: Client): (r: Outcome)
    ensures !Active(r.client)
    ensures r.client.(dockerClient := c.dockerClient) == c.(rpcClient := None)
    ensures !Active(c) ==> r.err.None?
    ensures Active(c) ==> (r.err.None? <==> !c.rpcClient.value.pipes.conn.closed)
    ensures r.err.Some? ==> r.err.value == Closing(Net.UseOfClosed)
    ensures r.client.dockerClient.Some? <==> c.dockerClient.Some?
    ensures c.dockerClient.Some? ==> r.client.dockerClient.value.removals == c.dockerClient.value.removals + [c.id]
  {
    var removed := match c.dockerClient
      case Some(dc) => c.(dockerClient := Some(dc.(removals := dc.removals + [c.id])))
      case None => c;
    match removed.rpcClient
    case None => Outcome(removed, None)
    case Some(rpc) =>
      var (_, err) := Pipes.Close(rpc.pipes);
      Outcome(removed.(rpcClient := None), if err.Some? then Some(Closing(err.value)) else None)
  }

  /** Whatever the error buffer held before a call, the call's outcome is the same: `Call` resets it first. */
  lemma CallResetsStdErr(c: Client, codec: Codec, earlier: seq<byte>)
    requires Active(c)
    ensures Call(c.(stdErrBuf := earlier), codec) == Call(c, codec)
  {
  }

  /** After a call whose stream failed, the next call fails with `ErrShutdown` and sends nothing. */
  lemma CallAfterStreamFailure(c: Client, codec: Codec, next: Codec)
    requires Active(c) && Call(c, codec).err.Some? && Call(c, codec).err.value.StreamFailed?
    ensures var after := Call(c, codec).client;
      var again := Call(after, next);
      && again.err == Some(Shutdown)
      && again.response == []
      && again.client.rpcClient == after.rpcClient
  {
  }

  /**
   * A call over an attach stream of well-formed frames hands the codec only
   * stdout bytes, in order, and afterwards `StdError` holds only stderr bytes
   * that arrived during this call, in order.
   */
  lemma CallSeparatesStreams(c: Client, codec: Codec, fs: seq<Stream.Frame>)
    requires Active(c)
    requires Stream.ValidSizes(codec.bufSizes)
    requires Stream.AllWellFormed(fs)
    requires c.rpcClient.value.pipes.bytesRemaining == 0
    requires c.rpcClient.value.pipes.conn.incoming == Stream.Wire(fs) && !c.rpcClient.value.pipes.conn.closed
    ensures Call(c, codec).response <= Stream.Channel(fs, Pipes.StdoutTag)
    ensures StdError(Call(c, codec).client) <= AsText(Stream.Channel(fs, Pipes.StderrTag))
  {
    var rpc := c.rpcClient.value;
    var stderr := Stream.Channel(fs, Pipes.StderrTag);
    if !rpc.shutdown {
      var (p1, sent) := Pipes.Write(rpc.pipes, codec.request);
      assert p1.bytesRemaining == 0 && p1.conn.incoming == Stream.Wire(fs) && !p1.conn.closed;
      var more := seq(Net.Measure(p1.conn.incoming) + 1, _ => 1);
      var sizes := codec.bufSizes + more;
      assert Stream.ValidSizes(sizes) by {
        forall i | 0 <= i < |sizes| ensures 0 < sizes[i] < TwoTo32 {
          if i >= |codec.bufSizes| {
            assert sizes[i] == more[i - |codec.bufSizes|];
          }
        }
      }
      Stream.ReadNExtends(p1, [], codec.bufSizes, more);
      Stream.DrainDemultiplexes(fs, p1, [], sizes);
      AsTextPrefix(Call(c, codec).client.stdErrBuf, stderr);
    } else {
      AsTextPrefix([], stderr);
    }
  }

  /**
   * A call whose codec reads the whole attach stream sees exactly the stdout
   * payloads, leaves exactly the stderr payloads in `StdError`, and ends with
   * the stream at `io.EOF`, which shuts the RPC client down.
   */
  lemma CallReadsWholeStream(c: Client, codec: Codec, fs: seq<Stream.Frame>)
    requires Active(c) && !c.rpcClient.value.shutdown
    requires Stream.AllWellFormed(fs)
    requires c.rpcClient.value.pipes.bytesRemaining == 0
    requires c.rpcClient.value.pipes.conn.incoming == Stream.Wire(fs) && !c.rpcClient.value.pipes.conn.closed
    requires Stream.ValidSizes(codec.bufSizes) && Net.Measure(Stream.Wire(fs)) < |codec.bufSizes|
    ensures Call(c, codec).response == Stream.Channel(fs, Pipes.StdoutTag)
    ensures StdError(Call(c, codec).client) == AsText(Stream.Channel(fs, Pipes.StderrTag))
    ensures Call(c, codec).err == Some(StreamFailed(Pipes.Transport(Net.Eof)))
    ensures Call(c, codec).client.rpcClient.value.shutdown
  {
    var (p1, sent) := Pipes.Write(c.rpcClient.value.pipes, codec.request);
    assert p1.bytesRemaining == 0 && p1.conn.incoming == Stream.Wire(fs) && !p1.conn.closed;
    Stream.DrainDemultiplexes(fs, p1, [], codec.bufSizes);
  }

  /** A second `Close` reports no error. */
  lemma CloseTwice(c: Client)
    ensures var again := Close(Close(c).client);
      again.err.None? && !Active(again.client)
  {
  }

  /** `Close` after a failed `Start` of a fresh client reports no error. */
  lemma CloseAfterFailedStart(name: string, dockerImage: string, endpoint: string, outcome: StartOutcome)
    requires !outcome.Attached?
    ensures var started := Start(NewClient(name, dockerImage, endpoint), outcome);
      started.err.Some? && Close(started.client).err.None?
  {
  }
}

=== FILE: net.dfy ===
/**
 * The hijacked attach connection (`net.Conn`) as the demultiplexer sees it:
 * a queue of chunks the peer delivers, one per `Read` unless the caller's
 * buffer is smaller than the chunk, a log of the bytes written to it, and
 * whether it has been closed.
 */
module Net {
  import opened Bytes
  import opened Wrappers

  /** Failures a connection operation reports. */
  datatype NetError =
    | Eof             // the peer closed its side: `io.EOF`
    | UseOfClosed     // the local side was already closed
    | IoFailure(code: nat)  // any other socket failure, opaque

  /** One delivery from the peer: some bytes, or a failure. */
  datatype Chunk = Data(bytes: seq<byte>) | Fail(code: nat)

  datatype Conn = Conn(incoming: seq<Chunk>, outgoing: seq<byte>, closed: bool)

  /** Outcome of one `conn.Read(p)` and the connection after it. */
  datatype Received = Received(result: Result<seq<byte>, NetError>, conn: Conn)

  /** The bytes still to be delivered, in order, ignoring failures. */
  function Pending(s: seq<Chunk>): seq<byte>
  {
    if |s| == 0 then []
    else (if s[0].Data? then s[0].bytes else []) + Pending(s[1..])
  }

  /** A size that every successful read with a non-empty buffer strictly reduces. */
  function Measure(s: seq<Chunk>): nat
  {
    if |s| == 0 then 0
    else 1 + (if s[0].Data? then |s[0].bytes| else 0) + Measure(s[1..])
  }

  /**
   * `conn.Read(p)` with `len(p) == capacity`: returns the head chunk, or its
   * first `capacity` bytes when it does not fit, leaving the rest at the head.
   */
  function Read(c: Conn, capacity: nat): (r: Received)
    ensures r.result.Ok? ==> |r.result.value| <= capacity
    ensures Pending(c.incoming) == (if r.result.Ok? then r.result.value else []) + Pending(r.conn.incoming)
    ensures Measure(r.conn.incoming) <= Measure(c.incoming)
    ensures r.result.Ok? && 0 < capacity ==> Measure(r.conn.incoming) < Measure(c.incoming)
    ensures r.conn.outgoing == c.outgoing && r.conn.closed == c.closed
    ensures c.closed ==> r.result == Err(UseOfClosed)
    ensures !c.closed && |c.incoming| == 0 ==> r.result == Err(Eof)
  {
    if c.closed then Received(Err(UseOfClosed), c)
    else if |c.incoming| == 0 then Received(Err(Eof), c)
    else
      var rest := c.incoming[1..];
      assert Pending(c.incoming) == (if c.incoming[0].Data? then c.incoming[0].bytes else []) + Pending(rest);
      match c.incoming[0]
      case Fail(code) => Received(Err(IoFailure(code)), c.(incoming := rest))
      case Data(d) =>
        if |d| <= capacity then Received(Ok(d), c.(incoming := rest))
        else
          var left := [Data(d[capacity..])] + rest;
          assert left[1..] == rest;
          assert d == d[..capacity] + d[capacity..];
          Received(Ok(d[..capacity]), c.(incoming := left))
  }

  /** Outcome of a write or close and the connection after it. */
  datatype Sent = Sent(count: nat, err: Option<NetError>, conn: Conn)

  /** `conn.Write(b)`: the whole buffer goes out unless the connection is closed. */
  function Write(c: Conn, b: seq<byte>): (r: Sent)
    ensures r.conn.incoming == c.incoming && r.conn.closed == c.closed
    ensures r.err.None? <==> !c.closed
    ensures r.err.None? ==> r.count == |b| && r.conn.outgoing == c.outgoing + b
    ensures r.err.Some? ==> r.count == 0 && r.conn == c
  {
    if c.closed then Sent(0, Some(UseOfClosed), c)
    else Sent(|b|, None, c.(outgoing := c.outgoing + b))
  }

  /** `conn.Close()`: a second close reports an error and changes nothing. */
  function Close(c: Conn): (r: Sent)
    ensures r.conn.closed
    ensures r.conn.incoming == c.incoming && r.conn.outgoing == c.outgoing
    ensures r.err.None? <==> !c.closed
  {
    if c.closed then Sent(0, Some(UseOfClosed), c)
    else Sent(0, None, c.(closed := true))
  }
}

=== FILE: pipes.dfy ===
/**
 * The attach-stream demultiplexer (`dockerPipes`). Each frame on the wire is an
 * 8-byte header (byte 0 the stream tag, bytes 4..7 the big-endian uint32 payload
 * length, as in the "Attach to a container" section of the Docker Engine Remote
 * API v1.20) followed by the payload. `Read` consumes a header only when no
 * payload is outstanding, then does one connection read into the caller's buffer
 * and routes the bytes by tag: stdout to the caller, stderr to the client's error
 * buffer, stdin nowhere.
 *
 * The error buffer is a pointer the pipes share with the client; here it is an
 * explicit argument and result of `Read`.
 */
module Pipes {
  import opened Bytes
  import opened Wrappers
  import Net

  const StdinTag: byte := 0
  const StdoutTag: byte := 1
  const StderrTag: byte := 2

  /** Length every header chunk must have. */
  const HeaderLen: nat := 8

  /** Capacity of the scratch buffer the header is read into. */
  const HeaderBufSize: nat := 1024

  predicate KnownTag(tag: byte)
  {
    tag == StdinTag || tag == StdoutTag || tag == StderrTag
  }

  /** The bytes `d` of a frame tagged `tag` that belong to stream `want`. */
  function OnStream(want: byte, tag: byte, d: seq<byte>): seq<byte>
  {
    if tag == want then d else []
  }

  datatype PipeError =
    | Transport(cause: Net.NetError)  // the connection read or write failed
    | BadHeader                       // "Expected 8 byte header from Docker"
    | UnsupportedPipe(tag: byte)      // "Unsupported pipe: %d"

  /** Demultiplexer state: the connection, the unread payload count, the current stream tag. */
  datatype Pipes = Pipes(conn: Net.Conn, bytesRemaining: uint32, pipeName: byte)

  /** The state `Start` creates over a freshly attached connection: nothing pending, stream 0. */
  function Initial(conn: Net.Conn): (p: Pipes)
    ensures p.conn == conn && p.bytesRemaining == 0 && p.pipeName == StdinTag
  {
    Pipes(conn, 0, StdinTag)
  }

  datatype Header = Header(tag: byte, size: uint32)

  /** The header a well-behaved peer puts on the wire; bytes 1..3 are reserved. */
  function EncodeHeader(h: Header): (b: seq<byte>)
    ensures |b| == HeaderLen
  {
    [h.tag, 0, 0, 0] + U32ToBigEndian(h.size)
  }

  /** Interprets the bytes one header read returned. */
  function ParseHeader(chunk: seq<byte>): (r: Result<Header, PipeError>)
    ensures r.Ok? <==> |chunk| == HeaderLen
    ensures r.Err? ==> r.error == BadHeader
    ensures r.Ok? ==> r.value.tag == chunk[0] && U32ToBigEndian(r.value.size) == chunk[4..8]
  {
    if |chunk| != HeaderLen then Err(BadHeader)
    else Ok(Header(chunk[0], BigEndianU32(chunk[4..8])))
  }

  /** Parsing an encoded header gives it back. */
  lemma ParseEncodedHeader(h: Header)
    ensures ParseHeader(EncodeHeader(h)) == Ok(h)
  {
    DecodeEncode(h.size);
    assert EncodeHeader(h)[4..8] == U32ToBigEndian(h.size);
  }

  /** Only byte 0 and bytes 4..7 of a header matter. */
  lemma ReservedBytesIgnored(a: seq<byte>, b: seq<byte>)
    requires |a| == |b| == HeaderLen
    requires a[0] == b[0] && a[4..8] == b[4..8]
    ensures ParseHeader(a) == ParseHeader(b)
  {
  }

  /** The header step: one connection read into the 1024-byte scratch buffer, then parsing. */
  function HeaderRead(conn: Net.Conn): (r: Result<Header, PipeError>)
    ensures r.Ok? <==> Net.Read(conn, HeaderBufSize).result.Ok? && |Net.Read(conn, HeaderBufSize).result.value| == HeaderLen
    ensures Net.Read(conn, HeaderBufSize).result.Ok? ==> r == ParseHeader(Net.Read(conn, HeaderBufSize).result.value)
    ensures Net.Read(conn, HeaderBufSize).result.Err? ==> r == Err(Transport(Net.Read(conn, HeaderBufSize).result.error))
  {
    match Net.Read(conn, HeaderBufSize).result
    case Err(e) => Err(Transport(e))
    case Ok(chunk) => ParseHeader(chunk)
  }

  /**
   * The unread payload count after a successful payload read into a buffer of
   * `capacity` bytes: it drops by the buffer's capacity (truncated to uint32),
   * not by the number of bytes the read returned, and stops at zero.
   */
  function NextRemaining(remaining: uint32, capacity: nat): (r: uint32)
    ensures r <= remaining
    ensures r as int + ToUint32(capacity) as int >= remaining as int
    ensures r > 0 ==> r as int + ToUint32(capacity) as int == remaining as int
    ensures remaining > 0 && ToUint32(capacity) > 0 ==> r < remaining
  {
    var bufSize := ToUint32(capacity);
    if bufSize < remaining then remaining - bufSize else 0
  }

  /** Where one payload read's bytes went. */
  datatype Routed = Routed(data: seq<byte>, stdErr: seq<byte>, err: Option<PipeError>)

  /** The switch on the stream tag. */
  function Dispatch(tag: byte, d: seq<byte>, stdErr: seq<byte>): (r: Routed)
    ensures r.err.None? <==> KnownTag(tag)
    ensures r.err.Some? ==> r.err.value == UnsupportedPipe(tag)
    ensures r.data == OnStream(StdoutTag, tag, d)
    ensures r.stdErr == stdErr + OnStream(StderrTag, tag, d)
  {
    if tag == StdinTag then Routed([], stdErr, None)
    else if tag == StdoutTag then Routed(d, stdErr, None)
    else if tag == StderrTag then Routed([], stdErr + d, None)
    else Routed([], stdErr, Some(UnsupportedPipe(tag)))
  }

  /** Every payload byte reaches at most one destination, and only stdout bytes reach the caller. */
  lemma DispatchSeparates(tag: byte, d: seq<byte>, stdErr: seq<byte>)
    ensures var r := Dispatch(tag, d, stdErr);
      && stdErr <= r.stdErr
      && (r.data == [] || r.stdErr == stdErr)
      && (r.data != [] ==> tag == StdoutTag)
      && (r.stdErr != stdErr ==> tag == StderrTag)
      && r.data + r.stdErr[|stdErr|..] == (if tag == StdoutTag || tag == StderrTag then d else [])
  {
    var r := Dispatch(tag, d, stdErr);
    assert r.stdErr[|stdErr|..] == OnStream(StderrTag, tag, d);
  }

  /** Result of one `dockerPipes.Read(b)`: the new state, the error buffer, `b[0:n]`, the error. */
  datatype Step = Step(pipes: Pipes, stdErr: seq<byte>, data: seq<byte>, err: Option<PipeError>)

  /** The payload step: one connection read straight into the caller's buffer, then routing. */
  function ReadPayload(p: Pipes, stdErr: seq<byte>, capacity: nat): (r: Step)
    ensures r.pipes.pipeName == p.pipeName
    ensures r.pipes.conn == Net.Read(p.conn, capacity).conn
    ensures Net.Read(p.conn, capacity).result.Err? ==>
      && r.err == Some(Transport(Net.Read(p.conn, capacity).result.error))
      && r.pipes.bytesRemaining == p.bytesRemaining
      && r.data == [] && r.stdErr == stdErr
    ensures Net.Read(p.conn, capacity).result.Ok? ==>
      var d := Net.Read(p.conn, capacity).result.value;
      && r.pipes.bytesRemaining == NextRemaining(p.bytesRemaining, capacity)
      && (r.err.None? <==> KnownTag(p.pipeName))
      && (r.err.Some? ==> r.err.value == UnsupportedPipe(p.pipeName))
      && r.data == OnStream(StdoutTag, p.pipeName, d)
      && r.stdErr == stdErr + OnStream(StderrTag, p.pipeName, d)
  {
    var rcv := Net.Read(p.conn, capacity);
    match rcv.result
    case Err(e) => Step(p.(conn := rcv.conn), stdErr, [], Some(Transport(e)))
    case Ok(d) =>
      var q := p.(conn := rcv.conn, bytesRemaining := NextRemaining(p.bytesRemaining, capacity));
      var routed := Dispatch(p.pipeName, d, stdErr);
      Step(q, routed.stdErr, routed.data, routed.err)
  }

  /** `dockerPipes.Read(b)` with `len(b) == capacity`. */
  function Read(p: Pipes, stdErr: seq<byte>, capacity: nat): (r: Step)
    // The error buffer only grows, by stderr bytes; the caller only gets stdout bytes.
    ensures stdErr <= r.stdErr
    ensures |r.data| <= capacity
    ensures r.err.Some? ==> r.data == [] && r.stdErr == stdErr
    ensures r.data != [] ==> r.pipes.pipeName == StdoutTag
    ensures r.stdErr != stdErr ==> r.pipes.pipeName == StderrTag
    ensures r.pipes.conn.outgoing == p.conn.outgoing && r.pipes.conn.closed == p.conn.closed
  {
    if p.bytesRemaining == 0 then
      var hdr := Net.Read(p.conn, HeaderBufSize);
      match HeaderRead(p.conn)
      case Err(e) => Step(p.(conn := hdr.conn), stdErr, [], Some(e))
      case Ok(h) => ReadPayload(p.(conn := hdr.conn, pipeName := h.tag, bytesRemaining := h.size), stdErr, capacity)
    else
      ReadPayload(p, stdErr, capacity)
  }

  /** A pending payload is continued: no header read, just the payload step on the same stream. */
  lemma ReadContinuesPayload(p: Pipes, stdErr: seq<byte>, capacity: nat)
    requires p.bytesRemaining != 0
    ensures Read(p, stdErr, capacity) == ReadPayload(p, stdErr, capacity)
    ensures Read(p, stdErr, capacity).pipes.pipeName == p.pipeName
    ensures Read(p, stdErr, capacity).pipes.conn == Net.Read(p.conn, capacity).conn
  {
  }

  /** A failed or mis-sized header read delivers nothing and leaves the counters untouched. */
  lemma ReadRejectsHeader(p: Pipes, stdErr: seq<byte>, capacity: nat)
    requires p.bytesRemaining == 0 && HeaderRead(p.conn).Err?
    ensures var r := Read(p, stdErr, capacity);
      && r.err == Some(HeaderRead(p.conn).error)
      && r.pipes == p.(conn := Net.Read(p.conn, HeaderBufSize).conn)
      && r.data == [] && r.stdErr == stdErr
  {
  }

  /**
   * A good header commits its tag and size before the payload step, which follows
   * at once on the same call; the commit stands even when that payload read fails.
   */
  lemma ReadCommitsHeader(p: Pipes, stdErr: seq<byte>, capacity: nat)
    requires p.bytesRemaining == 0 && HeaderRead(p.conn).Ok?
    ensures var r := Read(p, stdErr, capacity);
      var h := HeaderRead(p.conn).value;
      var afterHeader := Net.Read(p.conn, HeaderBufSize).conn;
      && r == ReadPayload(p.(conn := afterHeader, pipeName := h.tag, bytesRemaining := h.size), stdErr, capacity)
      && r.pipes.pipeName == h.tag
      && r.pipes.conn == Net.Read(afterHeader, capacity).conn
      && (Net.Read(afterHeader, capacity).result.Err? ==> r.pipes.bytesRemaining == h.size)
      && (Net.Read(afterHeader, capacity).result.Ok? ==> r.pipes.bytesRemaining == NextRemaining(h.size, capacity))
  {
  }

  /** A successful read with a buffer of non-zero uint32 capacity strictly shrinks a pending payload. */
  lemma ContinuationProgresses(p: Pipes, stdErr: seq<byte>, capacity: nat)
    requires p.bytesRemaining != 0 && ToUint32(capacity) != 0
    requires Net.Read(p.conn, capacity).result.Ok?
    ensures Read(p, stdErr, capacity).pipes.bytesRemaining < p.bytesRemaining
  {
  }

  /** `dockerPipes.Write`: straight through to the connection. */
  function Write(p: Pipes, b: seq<byte>): (r: (Pipes, Net.Sent))
    ensures r.0.bytesRemaining == p.bytesRemaining && r.0.pipeName == p.pipeName
    ensures r.0.conn.incoming == p.conn.incoming
    ensures r.1 == Net.Write(p.conn, b) && r.0.conn == r.1.conn
    ensures r.1.err.None? <==> !p.conn.closed
    ensures r.1.err.None? ==> r.0.conn.outgoing == p.conn.outgoing + b && r.1.count == |b|
  {
    var s := Net.Write(p.conn, b);
    (p.(conn := s.conn), s)
  }

  /** `dockerPipes.Close`: straight through to the connection. */
  function Close(p: Pipes): (r: (Pipes, Option<Net.NetError>))
    ensures r.0.conn.closed
    ensures r.0.bytesRemaining == p.bytesRemaining && r.0.pipeName == p.pipeName
    ensures r.0.conn.incoming == p.conn.incoming && r.0.conn.outgoing == p.conn.outgoing
    ensures r.1.None? <==> !p.conn.closed
  {
    var s := Net.Close(p.conn);
    (p.(conn := s.conn), s.err)
  }
}

=== FILE: scenarios.dfy ===
/**
 * Concrete attach streams: the interleaved stderr/stdout exchange, and three
 * inputs on which the demultiplexer, as written, does not recover the frames:
 * a zero-length frame, a header that arrives together with its payload, and a
 * payload that arrives in reads shorter than the caller's buffer.
 */
module Scenarios {
  import opened Bytes
  import Net
  import opened Wrappers
  import opened Pipes
  import opened Stream

  /** Demultiplexer state right after `Start`, over a connection that will deliver `chunks`. */
  function Fresh(chunks: seq<Net.Chunk>): (p: Pipes)
    ensures p.bytesRemaining == 0 && p.conn.incoming == chunks && !p.conn.closed
  {
    Initial(Net.Conn(chunks, [], false))
  }

  const Oops: seq<byte> := [111, 111, 112, 115, 33]  // "oops!"
  const Braces: seq<byte> := [123, 125]              // "{}"

  /** An stderr frame "oops!" then an stdout frame "{}". */
  const OopsThenBraces: seq<Frame> := [Frame(StderrTag, Oops), Frame(StdoutTag, Braces)]

  /** Reading "oops!" on stderr then "{}" on stdout to the end: the caller reads "{}", the error buffer holds "oops!". */
  lemma StderrThenStdout(sizes: seq<nat>)
    requires Exhausts(Fresh(Wire(OopsThenBraces)), sizes)
    ensures var r := ReadN(Fresh(Wire(OopsThenBraces)), [], sizes);
      r.data == Braces && r.stdErr == Oops
  {
    var fs := OopsThenBraces;
    assert AllWellFormed(fs);
    DrainDemultiplexes(fs, Fresh(Wire(fs)), [], sizes);
    assert fs[1..] == [Frame(StdoutTag, Braces)];
    assert fs[1..][1..] == [];
    assert Channel(fs[1..], StdoutTag) == Braces + Channel([], StdoutTag);
    assert Channel(fs[1..], StderrTag) == [] + Channel([], StderrTag);
  }

  /**
   * A zero-length frame has no payload on the wire, but the payload read
   * happens anyway: it takes the next frame's header and hands it to the
   * caller as stdout data, and the next header read then gets the payload.
   */
  lemma ZeroLengthFrameTakesNextHeader()
    ensures var fs := [Frame(StdoutTag, []), Frame(StdoutTag, [65])];
      var first := Read(Fresh(Wire(fs)), [], HeaderBufSize);
      && first.err.None?
      && first.data == EncodeHeader(Header(StdoutTag, 1))
      && Read(first.pipes, first.stdErr, HeaderBufSize).err == Some(BadHeader)
      && Read(first.pipes, first.stdErr, HeaderBufSize).pipes.conn.incoming == []
  {
    var fs := [Frame(StdoutTag, []), Frame(StdoutTag, [65])];
    ParseEncodedHeader(Header(StdoutTag, 0));
    assert fs[1..] == [Frame(StdoutTag, [65])];
    assert fs[1..][1..] == [];
    assert Wire(fs[1..]) == [Net.Data(EncodeHeader(Header(StdoutTag, 1))), Net.Data([65])] + Wire([]);
    assert Wire(fs) == [Net.Data(EncodeHeader(Header(StdoutTag, 0))), Net.Data(EncodeHeader(Header(StdoutTag, 1))), Net.Data([65])];
  }

  /** A header delivered in the same read as its payload is rejected, and the payload is lost with it. */
  lemma CoalescedHeaderRejected()
    ensures var r := Read(Fresh([Net.Data(EncodeHeader(Header(StdoutTag, 2)) + Braces)]), [], HeaderBufSize);
      && r.err == Some(BadHeader)
      && r.data == []
      && r.pipes.conn.incoming == []
  {
  }

  /**
   * The unread count drops by the buffer's capacity, not by the bytes a read
   * returned. A 10-byte stdout frame whose payload arrives as 1 byte then 9,
   * read with a 4-byte buffer, yields 9 bytes; the 10th byte is then taken as
   * a header and rejected.
   */
  lemma ShortReadLosesFrameBoundary()
    ensures var payload: seq<byte> := [0, 1, 2, 3, 4, 5, 6, 7, 8, 9];
      var chunks := [Net.Data(EncodeHeader(Header(StdoutTag, 10))), Net.Data(payload[..1]), Net.Data(payload[1..])];
      var r := ReadN(Fresh(chunks), [], [4, 4, 4, 4]);
      && r.data == payload[..9]
      && r.err == Some(BadHeader)
      && r.pipes.conn.incoming == []
  {
    ParseEncodedHeader(Header(StdoutTag, 10));
  }
}

=== FILE: stream.dfy ===
/**
 * Repeated reads through the demultiplexer over a whole attach stream, and the
 * separation theorem: for a stream of well-formed frames, each header and each
 * payload arriving as its own chunk, a consumer that reads to the end, with
 * any buffer size on each call, receives exactly the stdout payloads and the
 * error buffer gains exactly the stderr payloads.
 */
module Stream {
  import opened Bytes
  import opened Wrappers
  import Net
  import opened Pipes

  /** One frame as the container's side of the attach channel sends it. */
  datatype Frame = Frame(tag: byte, payload: seq<byte>)

  predicate Fits(f: Frame)
  {
    |f.payload| < TwoTo32
  }

  predicate AllFit(fs: seq<Frame>)
  {
    forall i :: 0 <= i < |fs| ==> Fits(fs[i])
  }

  /** A frame the demultiplexer handles: a known tag and a non-empty payload. */
  predicate WellFormed(f: Frame)
  {
    KnownTag(f.tag) && 0 < |f.payload| < TwoTo32
  }

  predicate AllWellFormed(fs: seq<Frame>)
  {
    forall i :: 0 <= i < |fs| ==> WellFormed(fs[i])
  }

  /** A frame on the wire: its header chunk, then its payload chunk if it has one. */
  function FrameChunks(f: Frame): (cs: seq<Net.Chunk>)
    requires Fits(f)
    ensures Net.Pending(cs) == EncodeHeader(Header(f.tag, |f.payload| as uint32)) + f.payload
  {
    var h := Net.Data(EncodeHeader(Header(f.tag, |f.payload| as uint32)));
    if |f.payload| == 0 then
      assert Net.Pending([h]) == h.bytes + Net.Pending([]);
      [h]
    else
      var cs := [h, Net.Data(f.payload)];
      assert cs[1..] == [Net.Data(f.payload)];
      assert Net.Pending(cs[1..]) == f.payload + Net.Pending([]);
      cs
  }

  function Wire(fs: seq<Frame>): seq<Net.Chunk>
    requires AllFit(fs)
  {
    if |fs| == 0 then [] else FrameChunks(fs[0]) + Wire(fs[1..])
  }

  /** The bytes `f` contributes to stream `tag`. */
  function Only(tag: byte, f: Frame): seq<byte>
  {
    OnStream(tag, f.tag, f.payload)
  }

  /** All payload bytes the frames carry on stream `tag`, in order. */
  function Channel(fs: seq<Frame>, tag: byte): seq<byte>
  {
    if |fs| == 0 then [] else Only(tag, fs[0]) + Channel(fs[1..], tag)
  }

  /** Outcome of a series of reads: final state, error buffer, bytes delivered, the error that stopped it. */
  datatype Reads = Reads(pipes: Pipes, stdErr: seq<byte>, data: seq<byte>, err: Option<PipeError>)

  /** One `Read` call on a state and an error buffer, with a buffer of the given size. */
  type Stepper = (Pipes, seq<byte>, nat) -> Step

  /**
   * A consumer's read loop: one call per entry of `sizes`, with a buffer of
   * that size, stopping at the first error.
   */
  function Reader(step: Stepper, p: Pipes, stdErr: seq<byte>, sizes: seq<nat>): Reads
    decreases |sizes|
  {
    if |sizes| == 0 then Reads(p, stdErr, [], None)
    else
      var s := step(p, stdErr, sizes[0]);
      if s.err.Some? then Reads(s.pipes, s.stdErr, [], s.err)
      else
        var rest := Reader(step, s.pipes, s.stdErr, sizes[1..]);
        Reads(rest.pipes, rest.stdErr, s.data + rest.data, rest.err)
  }

  /** Buffer sizes of a consumer that reads something each time and whose `uint32(len(b))` is exact. */
  predicate ValidSizes(sizes: seq<nat>)
  {
    forall i :: 0 <= i < |sizes| ==> 0 < sizes[i] < TwoTo32
  }

  lemma ValidSuffix(sizes: seq<nat>, k: nat)
    requires ValidSizes(sizes) && k <= |sizes|
    ensures ValidSizes(sizes[k..])
  {
    forall i | 0 <= i < |sizes[k..]| ensures 0 < sizes[k..][i] < TwoTo32 {
      assert sizes[k..][i] == sizes[k + i];
    }
  }

  /** Every successful step with a non-empty buffer consumes input. */
  ghost predicate Consuming(step: Stepper)
  {
    forall q, e, n :: 0 < n && step(q, e, n).err.None? ==>
      Net.Measure(step(q, e, n).pipes.conn.incoming) < Net.Measure(q.conn.incoming)
  }

  /** More steps than the connection's measure always end in an error. */
  lemma {:induction false} ReaderStops(step: Stepper, p: Pipes, stdErr: seq<byte>, sizes: seq<nat>)
    requires Consuming(step) && ValidSizes(sizes) && Net.Measure(p.conn.incoming) < |sizes|
    ensures Reader(step, p, stdErr, sizes).err.Some?
    decreases |sizes|
  {
    var s := step(p, stdErr, sizes[0]);
    if s.err.None? {
      ValidSuffix(sizes, 1);
      ReaderStops(step, s.pipes, s.stdErr, sizes[1..]);
    }
  }

  /** Once a reader has failed, further calls change nothing. */
  lemma {:induction false} ReaderSettles(step: Stepper, p: Pipes, stdErr: seq<byte>, sizes: seq<nat>, more: seq<nat>)
    requires Reader(step, p, stdErr, sizes).err.Some?
    ensures Reader(step, p, stdErr, sizes + more) == Reader(step, p, stdErr, sizes)
    decreases |sizes|
  {
    assert (sizes + more)[0] == sizes[0];
    var s := step(p, stdErr, sizes[0]);
    if s.err.None? {
      assert (sizes + more)[1..] == sizes[1..] + more;
      ReaderSettles(step, s.pipes, s.stdErr, sizes[1..], more);
    }
  }

  /** Further calls only extend what a reader delivers. */
  lemma {:induction false} ReaderGrows(step: Stepper, p: Pipes, stdErr: seq<byte>, sizes: seq<nat>, more: seq<nat>)
    requires AppendOnly(step)
    ensures Reader(step, p, stdErr, sizes).data <= Reader(step, p, stdErr, sizes + more).data
    ensures Reader(step, p, stdErr, sizes).stdErr <= Reader(step, p, stdErr, sizes + more).stdErr
    decreases |sizes|
  {
    if |sizes| > 0 {
      assert (sizes + more)[0] == sizes[0];
      var s := step(p, stdErr, sizes[0]);
      if s.err.None? {
        assert (sizes + more)[1..] == sizes[1..] + more;
        ReaderGrows(step, s.pipes, s.stdErr, sizes[1..], more);
        PrefixExtend(s.data, Reader(step, s.pipes, s.stdErr, sizes[1..]).data, Reader(step, s.pipes, s.stdErr, sizes[1..] + more).data);
      }
    } else {
      assert sizes + more == more;
      ReaderKeepsStdErr(step, p, stdErr, more);
    }
  }

  lemma PrefixExtend<T>(x: seq<T>, a: seq<T>, b: seq<T>)
    requires a <= b
    ensures x + a <= x + b
  {
    assert x + a == (x + b)[..|x + a|];
  }

  /** A step that only appends to the error buffer and leaves the outgoing side alone. */
  ghost predicate AppendOnly(step: Stepper)
  {
    forall q, e, n ::
      && e <= step(q, e, n).stdErr
      && step(q, e, n).pipes.conn.outgoing == q.conn.outgoing
      && step(q, e, n).pipes.conn.closed == q.conn.closed
  }

  /** Stepping `Read`. */
  function ReadStep(): Stepper
  {
    (q: Pipes, e: seq<byte>, n: nat) => Read(q, e, n)
  }

  lemma ReadStepConsumes()
    ensures Consuming(ReadStep())
  {
  }

  lemma ReadStepAppends()
    ensures AppendOnly(ReadStep())
  {
  }

  /** A reader over an append-only step never loses error-buffer contents and writes nothing. */
  lemma {:induction false} ReaderKeepsStdErr(step: Stepper, p: Pipes, stdErr: seq<byte>, sizes: seq<nat>)
    requires AppendOnly(step)
    ensures stdErr <= Reader(step, p, stdErr, sizes).stdErr
    ensures Reader(step, p, stdErr, sizes).pipes.conn.outgoing == p.conn.outgoing
    ensures Reader(step, p, stdErr, sizes).pipes.conn.closed == p.conn.closed
    decreases |sizes|
  {
    if |sizes| > 0 {
      var s := step(p, stdErr, sizes[0]);
      if s.err.None? {
        ReaderKeepsStdErr(step, s.pipes, s.stdErr, sizes[1..]);
      }
    }
  }

  /** A consumer that calls `Read` once per entry of `sizes`, with a buffer of that size. */
  function ReadN(p: Pipes, stdErr: seq<byte>, sizes: seq<nat>): (r: Reads)
    ensures stdErr <= r.stdErr
    ensures r.pipes.conn.outgoing == p.conn.outgoing && r.pipes.conn.closed == p.conn.closed
  {
    ReadStepAppends();
    ReaderKeepsStdErr(ReadStep(), p, stdErr, sizes);
    Reader(ReadStep(), p, stdErr, sizes)
  }

  /** Enough calls to reach the end of the input: more than the connection's measure. */
  predicate Exhausts(p: Pipes, sizes: seq<nat>)
  {
    ValidSizes(sizes) && Net.Measure(p.conn.incoming) < |sizes|
  }

  /** A consumer that makes enough calls always meets an error: it cannot read forever. */
  lemma ReadNStops(p: Pipes, stdErr: seq<byte>, sizes: seq<nat>)
    requires Exhausts(p, sizes)
    ensures ReadN(p, stdErr, sizes).err.Some?
  {
    ReadStepConsumes();
    ReaderStops(ReadStep(), p, stdErr, sizes);
  }

  /** Reading on only extends what was delivered, to the caller and to the error buffer. */
  lemma ReadNExtends(p: Pipes, stdErr: seq<byte>, sizes: seq<nat>, more: seq<nat>)
    ensures ReadN(p, stdErr, sizes).data <= ReadN(p, stdErr, sizes + more).data
    ensures ReadN(p, stdErr, sizes).stdErr <= ReadN(p, stdErr, sizes + more).stdErr
  {
    ReadStepAppends();
    ReaderGrows(ReadStep(), p, stdErr, sizes, more);
  }

  /** After an error, reading on changes nothing. */
  lemma ReadNSettles(p: Pipes, stdErr: seq<byte>, sizes: seq<nat>, more: seq<nat>)
    requires ReadN(p, stdErr, sizes).err.Some?
    ensures ReadN(p, stdErr, sizes + more) == ReadN(p, stdErr, sizes)
  {
    ReaderSettles(ReadStep(), p, stdErr, sizes, more);
  }

  /** A consumer's reads unfolded once at a successful first call. */
  lemma ReadNUnfold(p: Pipes, stdErr: seq<byte>, sizes: seq<nat>, s: Step)
    requires |sizes| > 0 && s == Read(p, stdErr, sizes[0]) && s.err.None?
    ensures var rest := ReadN(s.pipes, s.stdErr, sizes[1..]);
      ReadN(p, stdErr, sizes) == Reads(rest.pipes, rest.stdErr, s.data + rest.data, rest.err)
  {
    assert ReadStep()(p, stdErr, sizes[0]) == s;
  }

  /** Two states whose next `Read` agrees read alike from then on. */
  lemma ReadNFromSameStep(p: Pipes, q: Pipes, stdErr: seq<byte>, sizes: seq<nat>)
    requires |sizes| > 0 && Read(p, stdErr, sizes[0]) == Read(q, stdErr, sizes[0])
    ensures ReadN(p, stdErr, sizes) == ReadN(q, stdErr, sizes)
  {
    assert ReadStep()(p, stdErr, sizes[0]) == ReadStep()(q, stdErr, sizes[0]);
  }

  lemma MeasureCons(c: Net.Chunk, tail: seq<Net.Chunk>)
    ensures Net.Measure([c] + tail) == 1 + (if c.Data? then |c.bytes| else 0) + Net.Measure(tail)
  {
    assert ([c] + tail)[1..] == tail;
  }

  /** A continuation read that fits the whole rest of the payload ends the frame. */
  lemma ContinueLast(p: Pipes, stdErr: seq<byte>, capacity: nat, rest: seq<byte>, tail: seq<Net.Chunk>)
    requires 0 < capacity < TwoTo32
    requires KnownTag(p.pipeName)
    requires 0 < |rest| == p.bytesRemaining as int <= capacity
    requires p.conn.incoming == [Net.Data(rest)] + tail && !p.conn.closed
    ensures Read(p, stdErr, capacity) ==
      Step(p.(conn := p.conn.(incoming := tail), bytesRemaining := 0),
           stdErr + OnStream(StderrTag, p.pipeName, rest), OnStream(StdoutTag, p.pipeName, rest), None)
  {
    assert p.conn.incoming[0] == Net.Data(rest);
    assert p.conn.incoming[1..] == tail;
  }

  /** A continuation read smaller than the rest of the payload delivers a buffer's worth. */
  lemma ContinueSplit(p: Pipes, stdErr: seq<byte>, capacity: nat, rest: seq<byte>, tail: seq<Net.Chunk>)
    requires 0 < capacity < TwoTo32
    requires KnownTag(p.pipeName)
    requires capacity < |rest| == p.bytesRemaining as int
    requires p.conn.incoming == [Net.Data(rest)] + tail && !p.conn.closed
    ensures Read(p, stdErr, capacity) ==
      Step(p.(conn := p.conn.(incoming := [Net.Data(rest[capacity..])] + tail),
              bytesRemaining := p.bytesRemaining - capacity as uint32),
           stdErr + OnStream(StderrTag, p.pipeName, rest[..capacity]), OnStream(StdoutTag, p.pipeName, rest[..capacity]), None)
  {
    assert p.conn.incoming[0] == Net.Data(rest);
    assert p.conn.incoming[1..] == tail;
  }

  /** The number of bytes a run of calls with buffer sizes `sizes` can take in. */
  function Total(sizes: seq<nat>): nat
  {
    if |sizes| == 0 then 0 else sizes[0] + Total(sizes[1..])
  }

  /**
   * How many of the calls `sizes` it takes to read a payload remainder `rest`
   * that arrives as one chunk: the first `k` buffers cover it and the first
   * `k - 1` do not, unless the calls run out first.
   */
  function PayloadCalls(rest: seq<byte>, sizes: seq<nat>): (k: nat)
    ensures k <= |sizes|
    ensures k < |sizes| ==> 0 < k && |rest| <= Total(sizes[..k])
    ensures 0 < |rest| && 0 < k ==> Total(sizes[..k-1]) < |rest|
    decreases |sizes|
  {
    if |sizes| == 0 then 0
    else if |rest| <= sizes[0] then
      assert sizes[..1][1..] == [];
      1
    else
      var k' := PayloadCalls(rest[sizes[0]..], sizes[1..]);
      assert sizes[..k' + 1][1..] == sizes[1..][..k'];
      assert 0 < k' ==> sizes[..k'][1..] == sizes[1..][..k' - 1];
      1 + k'
  }

  /**
   * Continuing a payload whose remaining bytes `rest` are the head chunk delivers
   * them, piece by piece, to the stream's destination, and leaves the reader at
   * the next header with enough calls left for the rest of the input.
   */
  lemma {:induction false} DrainPayload(p: Pipes, stdErr: seq<byte>, sizes: seq<nat>, rest: seq<byte>, tail: seq<Net.Chunk>)
    requires Exhausts(p, sizes)
    requires KnownTag(p.pipeName)
    requires 0 < |rest| == p.bytesRemaining as int
    requires p.conn.incoming == [Net.Data(rest)] + tail && !p.conn.closed
    ensures var k := PayloadCalls(rest, sizes);
      var next := p.(conn := p.conn.(incoming := tail), bytesRemaining := 0);
      var d := ReadN(p, stdErr, sizes);
      var e := ReadN(next, stdErr + OnStream(StderrTag, p.pipeName, rest), sizes[k..]);
      && Exhausts(next, sizes[k..])
      && d.data == OnStream(StdoutTag, p.pipeName, rest) + e.data
      && d.stdErr == e.stdErr && d.err == e.err && d.pipes == e.pipes
    decreases |rest|
  {
    var capacity := sizes[0];
    var s := Read(p, stdErr, capacity);
    MeasureCons(Net.Data(rest), tail);
    ValidSuffix(sizes, 1);
    if |rest| <= capacity {
      ContinueLast(p, stdErr, capacity, rest, tail);
      ReadNUnfold(p, stdErr, sizes, s);
    } else {
      ContinueSplit(p, stdErr, capacity, rest, tail);
      ReadNUnfold(p, stdErr, sizes, s);
      var rest' := rest[capacity..];
      MeasureCons(Net.Data(rest'), tail);
      DrainPayload(s.pipes, s.stdErr, sizes[1..], rest', tail);
      var k' := PayloadCalls(rest', sizes[1..]);
      assert sizes[1..][k'..] == sizes[1 + k'..];
      var next := p.(conn := p.conn.(incoming := tail), bytesRemaining := 0);
      assert s.pipes.(conn := s.pipes.conn.(incoming := tail), bytesRemaining := 0) == next;
      RoutesSplit(p.pipeName, rest, capacity, stdErr);
      var e := ReadN(next, stdErr + OnStream(StderrTag, p.pipeName, rest), sizes[1 + k'..]);
      Regroup(s.data, OnStream(StdoutTag, p.pipeName, rest'), OnStream(StdoutTag, p.pipeName, rest), e.data);
    }
  }

  /** Delivering `a` then `b` then `c`, where `a` and `b` make up `whole`, delivers `whole` then `c`. */
  lemma Regroup<T>(a: seq<T>, b: seq<T>, whole: seq<T>, c: seq<T>)
    requires whole == a + b
    ensures a + (b + c) == whole + c
  {
  }

  /** Routing a payload in two pieces routes it as a whole. */
  lemma RoutesSplit(tag: byte, rest: seq<byte>, k: nat, stdErr: seq<byte>)
    requires k <= |rest|
    ensures OnStream(StdoutTag, tag, rest) == OnStream(StdoutTag, tag, rest[..k]) + OnStream(StdoutTag, tag, rest[k..])
    ensures stdErr + OnStream(StderrTag, tag, rest[..k]) + OnStream(StderrTag, tag, rest[k..]) == stdErr + OnStream(StderrTag, tag, rest)
  {
    assert rest == rest[..k] + rest[k..];
  }

  /**
   * The separation theorem: a consumer that reads a stream of well-formed frames
   * to the end, whatever buffer size it passes on each call, receives exactly the
   * stdout payloads, the error buffer gains exactly the stderr payloads, and the
   * reads end with `io.EOF` at a frame boundary.
   */
  lemma {:induction false} DrainDemultiplexes(fs: seq<Frame>, p: Pipes, stdErr: seq<byte>, sizes: seq<nat>)
    requires AllWellFormed(fs)
    requires p.bytesRemaining == 0 && p.conn.incoming == Wire(fs) && !p.conn.closed
    requires Exhausts(p, sizes)
    ensures ReadN(p, stdErr, sizes).data == Channel(fs, StdoutTag)
    ensures ReadN(p, stdErr, sizes).stdErr == stdErr + Channel(fs, StderrTag)
    ensures ReadN(p, stdErr, sizes).err == Some(Transport(Net.Eof))
    ensures ReadN(p, stdErr, sizes).pipes.bytesRemaining == 0
    decreases |fs|
  {
    if |fs| == 0 {
      assert ReadStep()(p, stdErr, sizes[0]).err == Some(Transport(Net.Eof));
    } else {
      var f := fs[0];
      var k := PayloadCalls(f.payload, sizes);
      var next := p.(conn := p.conn.(incoming := Wire(fs[1..])), pipeName := f.tag, bytesRemaining := 0);
      var stdErr' := stdErr + OnStream(StderrTag, f.tag, f.payload);
      FirstFrame(fs, p, stdErr, sizes);
      TailWellFormed(fs);
      DrainDemultiplexes(fs[1..], next, stdErr', sizes[k..]);
      ChannelCons(fs, stdErr);
    }
  }

  /** The channels of a stream start with the first frame's contribution. */
  lemma ChannelCons(fs: seq<Frame>, stdErr: seq<byte>)
    requires |fs| > 0
    ensures Channel(fs, StdoutTag) == OnStream(StdoutTag, fs[0].tag, fs[0].payload) + Channel(fs[1..], StdoutTag)
    ensures stdErr + Channel(fs, StderrTag) == stdErr + OnStream(StderrTag, fs[0].tag, fs[0].payload) + Channel(fs[1..], StderrTag)
  {
  }

  /** Reading the first frame of a stream: its payload goes to its stream, and the reader is left at the second frame. */
  lemma FirstFrame(fs: seq<Frame>, p: Pipes, stdErr: seq<byte>, sizes: seq<nat>)
    requires |fs| > 0 && AllWellFormed(fs)
    requires p.bytesRemaining == 0 && p.conn.incoming == Wire(fs) && !p.conn.closed
    requires Exhausts(p, sizes)
    ensures var f := fs[0];
      var k := PayloadCalls(f.payload, sizes);
      var next := p.(conn := p.conn.(incoming := Wire(fs[1..])), pipeName := f.tag, bytesRemaining := 0);
      var d := ReadN(p, stdErr, sizes);
      var e := ReadN(next, stdErr + OnStream(StderrTag, f.tag, f.payload), sizes[k..]);
      && Exhausts(next, sizes[k..])
      && d.data == OnStream(StdoutTag, f.tag, f.payload) + e.data
      && d.stdErr == e.stdErr && d.err == e.err && d.pipes == e.pipes
  {
    var f := fs[0];
    assert WellFormed(f);
    var h := Header(f.tag, |f.payload| as uint32);
    var tail := Wire(fs[1..]);
    var body := [Net.Data(f.payload)] + tail;
    var p1 := p.(conn := p.conn.(incoming := body), pipeName := h.tag, bytesRemaining := h.size);
    assert FrameChunks(f) == [Net.Data(EncodeHeader(h)), Net.Data(f.payload)];
    assert p.conn.incoming == [Net.Data(EncodeHeader(h))] + body;
    MeasureCons(Net.Data(EncodeHeader(h)), body);
    HeaderStep(p, p1, h, tail, f.payload, stdErr, sizes[0]);
    ReadNFromSameStep(p, p1, stdErr, sizes);
    DrainPayload(p1, stdErr, sizes, f.payload, tail);
  }

  /** Reading the header of a frame that arrives as its own chunk commits its tag and size. */
  lemma HeaderStep(p: Pipes, p1: Pipes, h: Header, tail: seq<Net.Chunk>, payload: seq<byte>, stdErr: seq<byte>, capacity: nat)
    requires p.bytesRemaining == 0 && !p.conn.closed && 0 < h.size
    requires p.conn.incoming == [Net.Data(EncodeHeader(h)), Net.Data(payload)] + tail
    requires p1 == p.(conn := p.conn.(incoming := [Net.Data(payload)] + tail), pipeName := h.tag, bytesRemaining := h.size)
    ensures HeaderRead(p.conn) == Ok(h)
    ensures Net.Read(p.conn, HeaderBufSize).conn == p1.conn
    ensures Read(p, stdErr, capacity) == Read(p1, stdErr, capacity)
  {
    ParseEncodedHeader(h);
    assert p.conn.incoming[0] == Net.Data(EncodeHeader(h));
    assert p.conn.incoming[1..] == [Net.Data(payload)] + tail;
  }

  lemma TailWellFormed(fs: seq<Frame>)
    requires |fs| > 0 && AllWellFormed(fs)
    ensures AllWellFormed(fs[1..])
  {
    forall i | 0 <= i < |fs[1..]| ensures WellFormed(fs[1..][i]) {
      assert fs[1..][i] == fs[i + 1];
    }
  }
}

=== FILE: wrappers.dfy ===
/** Failure-carrying datatypes used in place of Go's `(value, error)` returns and nil pointers. */
module Wrappers {

  /** A value that may be absent: a nil pointer in the Go source. */
  datatype Option<+T> = None | Some(value: T)

  /** Either a value or the error that prevented it. */
  datatype Result<+T, +E> = Ok(value: T) | Err(error: E)
}
